=== FILE: README.md ===
# chainreactors/logs — a Dafny model of the levelled logger

This project models the core of the Go package `logs`. The package is a small levelled logger with:

- a process-wide registry of level names, templates and colour functions;
- runtime level registration (`NewLevel`);
- a raw console passthrough (`Console`);
- one emission routine (`logInterface`) behind `Log`, `Debug`, `Warn`, `Info`, `Error` and `Important`.

An emission goes through these steps in order:

1. It applies the gate `!Quiet && level >= Level`.
2. It puts the message into the level's template with `fmt.Sprintf`.
3. It replaces every `{{suffix}}`, then every `{{prefix}}`.
4. It appends a newline.
5. It writes the line to the console, coloured when `Color` is set, and writes the plain line to the log file if one is open.

The model is functional:

- The process-wide maps `LogNameMap`, `DefaultFormatterMap` and `DefaultColorMap` form a `Levels.Registry`.
- A logger is an immutable `Logging.Logger` record.
- A `Logging.World` pairs the registry with one logger.
- An emission returns the console writes and the file writes as two sequences, or `None` for the panic of calling the nil colour function of a level missing from the colour map.

A logger's template and colour maps are a `MapSource`. The value `SharedDefault` stands for the aliasing that `NewLogger` sets up. `NewLogger` hands the logger the very default maps, so `NewLevel` on it also changes what `Level.Formatter` and `Level.Color` return. The value `Own(m)` stands for any other map installed by `SetFormatter` or `SetColorMap`; passing the default map back in gives `SharedDefault` again.

The modules follow the program's structure:

- `Options`: an option type.
- `Decimal`: `strconv.Itoa` and its inverse.
- `Fmt`: the part of `fmt.Sprintf` the logger uses.
- `Replace`: `strings.Replace(s, old, new, -1)`.
- `Colors`: the ANSI wrappers of `colors.go`.
- `Levels`: the level constants, the default maps and the `Level` methods.
- `Logging`: the logger record, `NewLogger`, the setters, `NewLevel`, `Console`, `logInterface`, and sequences of emissions.
- `Scenarios`: end-to-end consequences for the default logger `Log` and for levels registered at run time.

Some behaviours of the code are modelled as written rather than as a reader might expect:

- The Warn and Debug templates end in a space. `Warn("y")` therefore prints `"[warn] y \n"`.
- A level that has no template and is registered without options gets a name but still no template in the logger's map. `logInterface` reads the map directly and gets Go's zero value `""`. It then prints `%!(EXTRA string=<message>)` and a newline, while `Level.Formatter` reports `[<name>] %s`.
- Token replacement runs after formatting. A `{{suffix}}` inside the message is therefore replaced too: the message `{{suffix}}` through the template `%s` renders as the suffix.
- The colour wrappers are not idempotent. Wrapping twice nests two escape prefixes and two resets.

## Model

| member | source | states |
|---|---|---|
| Decimal.ItoaRoundTrip | log.go:73 | the decimal name of an unregistered level is a well-formed decimal that reads back as the level, negative levels included |
| Decimal.ItoaInjective | log.go:73 | different levels get different decimal names |
| Decimal.ItoaCanonical | log.go:73 | decimal names have no leading zero, and "0" names only level 0 |
| Decimal.Itoa | log.go:73 | the decimal name is non-empty, starts with '-' exactly for a negative level, and is digits otherwise |
| Fmt.Sprintf | log.go:182 | a template with the verb loses its two verb characters and gains the message; a template without one comes out whole, followed by `%!(EXTRA string=`, the message and `)` |
| Fmt.UnformatSprintf | log.go:182 | the message can be read back from the formatted line, so formatting with a fixed template is injective |
| Fmt.SprintfKeepsTemplate | log.go:182 | the template text before `%s` comes first and the text after it comes last, both verbatim |
| Fmt.VerbTemplate | log.go:25-31 | a template of the form text, `%s`, text with no other `%` is one this model formats, with its verb where the first text ends |
| Replace.Index | log.go:183-184 | finds the leftmost occurrence of the token, and finds none exactly when the token does not occur |
| Replace.ReplaceAllIsScan | log.go:183-184 | the replacement equals a left-to-right scan that replaces each non-overlapping match and copies every other character |
| Replace.ReplaceAllAbsent | log.go:183-184 | a string without the token is returned unchanged |
| Replace.ReplaceAllSelf | log.go:183-184 | replacing the token by itself changes nothing |
| Replace.ReplaceAllCopiesPrefix | log.go:183-184 | text before the first match is copied verbatim |
| Replace.ReplaceAllLeading | log.go:183-184 | a match at the start is replaced and the replacement continues after it |
| Colors.Paint | colors.go:3-29 | every wrapper adds exactly 11 characters |
| Colors.PrefixLayout | colors.go:3-29 | every prefix is the 7 characters ESC `[` attribute `;` `3` digit `m`; the attribute is 4 (underline) for Yellow and 1 (bold) otherwise; the digit gives the codes 31 to 37 |
| Colors.PaintFrame | colors.go:3-29 | the output starts with the colour's prefix and ends with the reset `ESC[0m` |
| Colors.UnpaintPaint | colors.go:3-29 | the wrapped string is the slice from 7 to four before the end of the output |
| Colors.PaintInjective | colors.go:3-29 | a wrapper maps different strings to different outputs |
| Colors.PaintDistinct | colors.go:3-29 | two different wrappers never produce the same output, whatever they wrap |
| Colors.PaintNotIdempotent | colors.go:3-5 | wrapping twice differs from wrapping once and nests the single wrapping inside |
| Levels.SeverityOrder | log.go:59-65 | Debug < Warn < Info < Error < Important, and different severities have different levels |
| Levels.SeverityAt | log.go:59-65 | finds the severity whose level is the given one, and finds none only when no severity has that level |
| Levels.SeverityAtLevel | log.go:59-65 | every severity is found again at its level |
| Levels.DefaultRegistry | log.go:17-39 | every built-in severity has a name, a template and a colour function |
| Levels.DefaultRegistryKeys | log.go:17-39 | the three default maps hold exactly the levels 10, 20, 30, 40 and 50 |
| Levels.DefaultRegistryAt | log.go:25-39 | each severity's default template is its built-in one, and the severity is named |
| Levels.DefaultNames | log.go:34-39 | the default names are "debug", "warn", "info", "error" and "important" |
| Levels.DefaultColors | log.go:17-23 | Debug is underlined yellow, Info bold cyan, and Error, Warn and Important use the bold wrappers |
| Levels.DefaultPartsVerbFree | log.go:25-31 | the text around the verb of each built-in template holds no `%` |
| Levels.DefaultTemplateWellFormed | log.go:25-31 | every built-in template is one this model formats |
| Levels.DefaultRegistryTemplates | log.go:25-31 | every default template belongs to a built-in severity and is well formed |
| Levels.NameResolves | log.go:69-75 | a registered level resolves to its name; any other level resolves to a decimal string that reads back as the level, with '-' exactly for negative levels |
| Levels.UnregisteredNamesDistinct | log.go:69-75 | two different unregistered levels never share a name |
| Levels.FormatterResolves | log.go:77-83 | a level with a default template resolves to it; any other resolves to `[<name>] %s`, which, for a name without `%`, is well formed and formats a message as `[<name>] <message>` |
| Levels.FallbackTemplateRenders | log.go:81 | the fallback template `[<name>] %s` is well formed for a name without `%` and puts the message after the bracketed name |
| Levels.ColorResolves | log.go:85-91 | a level with a default colour function resolves to it; any other to the identity, which returns its input unchanged |
| Logging.StoreUpdatesEffective | log.go:46-47 | a write through a logger's map changes exactly the map the logger sees; it touches the process-wide map only when the logger shares it |
| Logging.NewLoggerSharesDefaults | log.go:41-57 | a new logger sees the default maps themselves, is neither quiet nor clean, has colour off and no file, and has the given threshold |
| Logging.SetFormatter | log.go:137-139 | the logger sees the map passed in from now on, the default map itself when that is what is passed; nothing else changes |
| Logging.SetColorMap | log.go:121-123 | the logger sees the colour map passed in from now on, the default map itself when that is what is passed; nothing else changes |
| Logging.SetFormatterDecouples | log.go:137-148 | after `SetFormatter` with a map other than the default one, `NewLevel` updates that map and leaves the process-wide templates alone; after `SetFormatter(DefaultFormatterMap)` it writes the process-wide template again, which `Level.Formatter` then returns |
| Logging.NewLevel | log.go:141-155 | always names the level; without options leaves both maps as they were; with options sets the template to the given one or `[<name>] %s`; sets the colour only when one is given; keeps sharing as it was; touches no other logger field |
| Logging.NewLevelNames | log.go:143 | after registration the level's name is the registered one |
| Logging.NewLevelFrame | log.go:141-155 | every other level's name, template and colour is unchanged, both in the logger's maps and in the `Level` lookups |
| Logging.NewLevelThroughSharedMaps | log.go:144-153 | through a logger that shares the default maps, `NewLevel` changes what `Level.Formatter` and `Level.Color` return; through one with maps of its own it does not |
| Logging.Render | log.go:182-185 | every rendered line ends in a newline |
| Logging.RenderWithoutTokens | log.go:182-185 | when formatting leaves no token, the suffix and the prefix do not matter, and the line is the formatted message and a newline |
| Logging.SuffixPass | log.go:183 | in text without `{` followed by `{{suffix}}`, the token is replaced once by the suffix |
| Logging.PrefixPass | log.go:184 | the prefix pass leaves text without `{` and a suffix without the prefix token alone |
| Logging.SuffixTemplateRenders | log.go:182-185 | the Info, Error and Important template shape renders as head, message, a space, the suffix and a newline |
| Logging.MessageTokenReplaced | log.go:182-184 | the message `{{suffix}}` through the template `%s` renders as the suffix and a newline (for a suffix without `{{prefix}}`): a token inside the message is replaced too, because replacement follows formatting |
| Logging.LogInterface | log.go:180-197 | an emission panics (`None`) exactly when it passes the gate with colour on and the level has no colour function; it writes nothing when it does not pass; otherwise the file gets the plain line when a file is attached, and the console gets the line coloured or plain as `Color` says |
| Logging.LogInterfaceGate | log.go:180-197 | for an emission that does not panic, the console gets a write exactly when `!Quiet && level >= Level`, and at most one; the file gets one exactly when the gate passes and a file is attached |
| Logging.FileGetsPlainLine | log.go:186-195 | for a level that passes the gate and has a colour function, with a file attached, the file line is the same with colour on or off, and is the plain console line; with colour on the console gets that line through the level's colour function |
| Logging.CleanDoesNotGateEmission | log.go:181 | the `Clean` flag has no effect on an emission |
| Logging.Console | log.go:168-172 | the passthrough writes at most once, and only the given string |
| Logging.ConsoleGate | log.go:168-172 | the passthrough writes exactly when the logger is not clean, whatever `Quiet` and the threshold are |
| Logging.ReplayStep | log.go:180-197 | an emission that renders and does not panic extends the outputs of the earlier calls by its own line |
| Logging.Replay | log.go:180-197 | after a sequence of emissions, the file holds the plain lines of the calls that passed the gate, in call order, when a file is attached; the console holds as many writes, and these are the same lines when colour is off |
| Logging.PlainLinesCount | log.go:181 | the number of lines is the number of calls that pass the gate |
| Logging.PlainLineAt | log.go:180-197 | when every call passes, the i-th line is the i-th call rendered (for a template outside the model's formatting domain the rendering is the placeholder `""`) |
| Logging.PlainLinesInOrder | log.go:180-197 | when every call passes, there is one line per call, in call order, each the call rendered (for a template outside the model's formatting domain the rendering is the placeholder `""`) |
| Scenarios.DefaultWorldRenders | log.go:14 | the default logger renders every built-in severity through its built-in template |
| Scenarios.DefaultWorldConfig | log.go:14 | the default logger `Log` has threshold Warn, colour off, no file, and is not quiet |
| Scenarios.DefaultThreshold | log.go:14 | on `Log`, Debug is suppressed, and Warn, Info, Error and Important each write one console line and no file line |
| Scenarios.SuffixLevelLine | log.go:180-197 | for a message and template head without `{` and a suffix without `{{prefix}}`, a plain, file-less logger whose template has the suffix shape prints the head, the message, a space, the suffix and a newline |
| Scenarios.TokenFreeLevelLine | log.go:180-197 | for a message and template text without `{`, a plain, file-less logger prints the message between the template's text, whatever the decorations |
| Scenarios.InfoLine | log.go:234-236 | for a message without `{` and a suffix without `{{prefix}}`, `Info(s)` on `Log` prints `[+] <s> <suffix>` and a newline |
| Scenarios.InfoLineDefaultDecorations | log.go:48-53 | with the default suffix and prefix functions and a message and time without `{`, `Info(s)` on `Log` prints `[+] <s> , <time>` and a newline |
| Scenarios.WarnLine | log.go:250-252 | for a message without `{`, `Warn(s)` on `Log` prints `[warn] <s> ` (the trailing space included) and a newline, whatever the decorations |
| Scenarios.CustomTemplateLine | log.go:141-155 | on a plain, file-less logger passing level 100, after registering it as "alert" with the template `[ALERT] %s {{suffix}}`, a message without `{` and a suffix without `{{prefix}}` print `[ALERT] <s> <suffix>` and a newline |
| Scenarios.NewLevelWithOptionsLine | log.go:148 | for a name without `{` or `%` and a message without `{`, a level registered with an empty options map prints `[<name>] <message>` and a newline on a logger with colour off |
| Scenarios.NewLevelWithoutOptionsLine | log.go:141-155 | for a level with no template anywhere and a message without `{`, registering it without options makes it print Go's `%!(EXTRA string=<message>)` report and a newline on a logger with colour off, although `Level.Formatter` reports `[<name>] %s` for it |

## Left out

- File lifecycle: `Init`, `Close`, `SetFile`, and the writes and syncs on the log file. They need the `files` package, `os.Remove` and the executable path, which are not part of this model. The file is modelled as attached or not, plus the lines written to it.
- The `logCh` channel: it is created and never used.
- The mutex inside the file's write: it only matters for concurrency.
- The clock: `getCurtime` reads `time.Now`. The suffix and prefix functions' results are per-call string parameters. `Logging.DefaultSuffix` and `Logging.DefaultPrefix` give the default shapes.
- `logInterfacef`, `Logf`, the `…f` wrappers and `Consolef`. Their second `fmt.Sprintf` over arbitrary arguments needs Go's full verb and reflection semantics. Their gate, replacement and colour steps are the same as `logInterface`'s.
- `RedBold`, `YellowBold` and `PurpleBold` are referenced by the default colour map but not defined in `colors.go`. They are supplied as an arbitrary `Levels.Palette`.
- `SetQuiet`, `SetClean`, `SetColor` and `SetLevel` are plain field assignments. They are Dafny record updates (`log.(quiet := q)`) and get no members of their own.
- The writer is an `io.Writer`. An emission returns its console writes instead, so `SetOutput`, which replaces the writer, has nothing to act on.
- The type assertions in `NewLevel` (`f.(string)` and the colour function) panic on ill-typed option values. The options are typed here (`Logging.LevelOptions`), so those panics cannot arise.
- Nil maps passed to `SetFormatter` or `SetColorMap`, which would make `NewLevel` panic, are not modelled.
- Logging.LogInterface: a nil function stored as a colour map value, through `SetColorMap` or a typed-nil `"color"` option, panics in Go when called with colour on. Colour functions are total here, so only a level missing from the colour map yields the panic (`None`).
- Logging.SetFormatterDecouples: a map other than the default one (`Own`) is modelled as held by the logger alone. In Go the caller keeps a handle on the map passed to `SetFormatter` or `SetColorMap`, so it sees later `NewLevel` writes, and two loggers given the same map share it. Only sharing with the process-wide defaults, including passing them back in (`SharedDefault`), is modelled.
- Levels are Go `int`s. They are unbounded integers here, and no level arithmetic can overflow. Strings are sequences of characters, not bytes.
- Fmt.Sprintf: covers only templates whose first `%` starts `%s` and that have no other `%`. Every built-in template satisfies this. The `NewLevel` fallback `[<name>] %s` satisfies it for a name without `%` only. Other Go verbs, `%%`, and fallback templates of names containing `%` (which Go reports as bad verbs or missing arguments) are not modelled.
- Logging.LogInterface: requires the template to be of that form when the gate passes. Emissions through other templates are outside the model.
- Logging.Replay: with colour on, it states only how many console writes there are. Their contents are `Logging.LogInterface`'s: each line through the level's colour function.
- Logging.Emit, the per-severity wrappers, carries no contract of its own: it is `logInterface` at the severity's level.
- Colors.Paint: its own contract is the length only. The content is stated by `Colors.PaintFrame` and `Colors.UnpaintPaint`.
- Colour idempotence: wrapping is not idempotent (`Colors.PaintNotIdempotent`), so no lemma claims it.

=== FILE: colors.dfy ===
/** The ANSI colour wrappers: each surrounds a string with a seven-character
    escape prefix selecting an attribute and a foreground colour, and the
    four-character reset sequence. */
module Colors {

  datatype Color = Red | Green | Yellow | Blue | Purple | Cyan | White

  /** ESC, the first character of every escape sequence. */
  const Esc: char := '\U{1B}'

  /** `\033[0m`: reset all attributes. */
  const Reset: string := [Esc] + "[0m"

  /** The attribute digit: underline (4) for yellow, bold (1) for the rest. */
  function Attribute(c: Color): char
  {
    if c == Yellow then '4' else '1'
  }

  /** The foreground colour code, 31 to 37. */
  function Code(c: Color): nat
  {
    match c
    case Red => 31
    case Green => 32
    case Yellow => 33
    case Blue => 34
    case Purple => 35
    case Cyan => 36
    case White => 37
  }

  /** The escape prefix of a wrapper, `\033[<attribute>;<code>m`. */
  function Prefix(c: Color): string
  {
    match c
    case Red => [Esc] + "[1;31m"
    case Green => [Esc] + "[1;32m"
    case Yellow => [Esc] + "[4;33m"
    case Blue => [Esc] + "[1;34m"
    case Purple => [Esc] + "[1;35m"
    case Cyan => [Esc] + "[1;36m"
    case White => [Esc] + "[1;37m"
  }

  /** `Red(s)`, `Green(s)`, ...: the string between the colour's prefix and
      the reset sequence. */
  function Paint(c: Color, s: string): (r: string)
    ensures |r| == |s| + 11
  {
    Prefix(c) + s + Reset
  }

  /** Strips the prefix and the reset sequence. */
  function Unpaint(r: string): string
    requires |r| >= 11
  {
    r[7..|r| - 4]
  }

  /** Every prefix spells out its attribute and colour code. */
  lemma PrefixLayout(c: Color)
    ensures |Prefix(c)| == 7
    ensures Prefix(c)[0] == Esc && Prefix(c)[1] == '['
    ensures Prefix(c)[2] == Attribute(c) && Prefix(c)[3] == ';'
    ensures Prefix(c)[4] == '3' && Prefix(c)[5] as int - '0' as int == Code(c) - 30
    ensures Prefix(c)[6] == 'm'
  {
  }

  /** The wrapped string is recovered from the middle of the output. */
  lemma UnpaintPaint(c: Color, s: string)
    ensures Unpaint(Paint(c, s)) == s
  {
    PrefixLayout(c);
    assert Paint(c, s)[7..|s| + 7] == s;
  }

  /** Each wrapper starts with its own prefix and ends with the reset. */
  lemma PaintFrame(c: Color, s: string)
    ensures Paint(c, s)[..7] == Prefix(c)
    ensures Paint(c, s)[|s| + 7..] == Reset
  {
    PrefixLayout(c);
  }

  /** A wrapper is injective. */
  lemma PaintInjective(c: Color, s: string, t: string)
    ensures Paint(c, s) == Paint(c, t) ==> s == t
  {
    UnpaintPaint(c, s);
    UnpaintPaint(c, t);
  }

  /** Two different wrappers never produce the same output, whatever they
      wrap: their prefixes have equal length and differ. */
  lemma PaintDistinct(c: Color, d: Color, s: string, t: string)
    requires c != d
    ensures Paint(c, s) != Paint(d, t)
  {
    PaintFrame(c, s);
    PaintFrame(d, t);
    PrefixLayout(c);
    PrefixLayout(d);
    assert Code(c) != Code(d);
    assert Prefix(c)[5] != Prefix(d)[5];
  }

  /** Wrapping twice nests two prefixes and two resets, so no wrapper is
      idempotent. */
  lemma PaintNotIdempotent(c: Color, s: string)
    ensures Paint(c, Paint(c, s)) != Paint(c, s)
    ensures Unpaint(Paint(c, Paint(c, s))) == Paint(c, s)
  {
    UnpaintPaint(c, Paint(c, s));
  }
}

=== FILE: decimal.dfy ===
/** Decimal rendering of integers, as Go's `strconv.Itoa` does it, with the
    matching parser as its inverse. */
module Decimal {

  predicate IsDigit(c: char)
  {
    '0' <= c <= '9'
  }

  predicate AllDigits(s: string)
  {
    forall i :: 0 <= i < |s| ==> IsDigit(s[i])
  }

  /** The character of a single decimal digit. */
  function DigitChar(d: nat): (c: char)
    requires d < 10
    ensures IsDigit(c)
  {
    ('0' as int + d) as char
  }

  /** The value of a single decimal digit character. */
  function DigitValue(c: char): (d: nat)
    requires IsDigit(c)
    ensures d < 10
  {
    c as int - '0' as int
  }

  /** The digits of `n`, most significant first, with no leading zero. */
  function NatToString(n: nat): (s: string)
    ensures |s| >= 1
    ensures AllDigits(s)
    ensures s[0] == '0' ==> n == 0
    decreases n
  {
    if n < 10 then [DigitChar(n)]
    else NatToString(n / 10) + [DigitChar(n % 10)]
  }

  /** `strconv.Itoa`: an optional minus sign followed by the digits of the
      magnitude. */
  function Itoa(n: int): (s: string)
    ensures |s| >= 1
    ensures s[0] == '-' <==> n < 0
    ensures AllDigits(if n < 0 then s[1..] else s)
  {
    if n < 0 then "-" + NatToString(-n) else NatToString(n)
  }

  /** Reference reading of a string of digits. */
  function ParseNat(s: string): nat
    requires AllDigits(s)
  {
    if |s| == 0 then 0
    else ParseNat(s[..|s| - 1]) * 10 + DigitValue(s[|s| - 1])
  }

  /** A decimal integer as `Itoa` writes it: an optional minus sign and at
      least one digit. */
  predicate IsDecimal(s: string)
  {
    if |s| > 0 && s[0] == '-' then |s| > 1 && AllDigits(s[1..])
    else |s| > 0 && AllDigits(s)
  }

  /** Reference reading of a decimal integer. */
  function Atoi(s: string): int
    requires IsDecimal(s)
  {
    if s[0] == '-' then -(ParseNat(s[1..]) as int) else ParseNat(s)
  }

  lemma {:induction false} ParseNatToString(n: nat)
    ensures ParseNat(NatToString(n)) == n
    decreases n
  {
    if n >= 10 {
      var front := NatToString(n / 10);
      var s := front + [DigitChar(n % 10)];
      assert s[..|s| - 1] == front;
      ParseNatToString(n / 10);
    }
  }

  /** Reading back what `Itoa` wrote gives the integer again. */
  lemma ItoaRoundTrip(n: int)
    ensures IsDecimal(Itoa(n))
    ensures Atoi(Itoa(n)) == n
  {
    var s := Itoa(n);
    if n < 0 {
      assert s[1..] == NatToString(-n);
      ParseNatToString(-n);
    } else {
      ParseNatToString(n);
    }
  }

  /** Distinct integers have distinct decimal renderings. */
  lemma ItoaInjective(m: int, n: int)
    ensures Itoa(m) == Itoa(n) ==> m == n
  {
    ItoaRoundTrip(m);
    ItoaRoundTrip(n);
  }

  /** `Itoa` never writes a redundant leading zero or a negative zero. */
  lemma ItoaCanonical(n: int)
    ensures Itoa(n) == "0" <==> n == 0
    ensures n > 0 ==> Itoa(n)[0] != '0'
    ensures n < 0 ==> Itoa(n)[1] != '0'
  {
    if n < 0 {
      assert Itoa(n)[1..] == NatToString(-n);
    }
  }
}

=== FILE: fmt.dfy ===
/** The part of Go's `fmt.Sprintf(template, s)` the logger relies on: a
    template with at most one verb, `%s`, applied to one string argument. */
module Fmt {

  /** The index of the first `c` in `t`, or `|t|` when there is none. */
  function FirstIndex(t: string, c: char): (r: nat)
    ensures r <= |t|
    ensures r < |t| ==> t[r] == c
    ensures c !in t[..r]
  {
    if |t| == 0 || t[0] == c then 0
    else
      var r := 1 + FirstIndex(t[1..], c);
      assert t[..r] == [t[0]] + t[1..][..r - 1];
      r
  }

  /** `FirstIndex` finds the first `c`, wherever it is. */
  lemma {:induction false} FirstIndexAt(t: string, c: char, k: nat)
    requires k <= |t|
    requires k < |t| ==> t[k] == c
    requires forall j :: 0 <= j < k ==> t[j] != c
    ensures FirstIndex(t, c) == k
  {
    if k > 0 {
      FirstIndexAt(t[1..], c, k - 1);
    }
  }

  /** Where the `%` characters of `a + "%s" + b` are. */
  lemma VerbTemplateChars(a: string, b: string)
    requires forall i :: 0 <= i < |a| ==> a[i] != '%'
    requires forall i :: 0 <= i < |b| ==> b[i] != '%'
    ensures var t := a + "%s" + b;
      && t[|a|] == '%' && t[|a| + 1] == 's'
      && (forall i :: 0 <= i < |a| ==> t[i] != '%')
      && (forall j :: |a| < j < |t| ==> t[j] != '%')
  {
    var head := a + "%s";
    var t := head + b;
    forall i | 0 <= i < |a|
      ensures t[i] != '%'
    {
      assert t[i] == head[i] == a[i];
    }
    forall j | |head| <= j < |t|
      ensures t[j] != '%'
    {
      assert t[j] == b[j - |head|];
    }
  }

  /** A template with one `%s` and no other `%` is well formed, and its
      verb is where the `%s` was put. */
  lemma VerbTemplate(a: string, b: string)
    requires forall i :: 0 <= i < |a| ==> a[i] != '%'
    requires forall i :: 0 <= i < |b| ==> b[i] != '%'
    ensures FirstIndex(a + "%s" + b, '%') == |a|
    ensures WellFormed(a + "%s" + b)
  {
    VerbTemplateChars(a, b);
    FirstIndexAt(a + "%s" + b, '%', |a|);
  }

  /** Templates this model formats: the first `%` if any starts the verb
      `%s`, and no `%` follows it. The built-in templates all qualify. */
  predicate WellFormed(t: string)
  {
    var i := FirstIndex(t, '%');
    i < |t| ==> i + 1 < |t| && t[i + 1] == 's' && forall j :: i < j < |t| ==> t[j] != '%'
  }

  /** What Go appends when a call has an argument that no verb consumed. */
  const ExtraOpen: string := "%!(EXTRA string="
  const ExtraClose: string := ")"

  predicate HasVerb(t: string)
  {
    FirstIndex(t, '%') < |t|
  }

  /** `fmt.Sprintf(t, s)`: the verb is replaced by `s`; a template without a
      verb gets the argument reported after it as `%!(EXTRA string=s)`. */
  function Sprintf(t: string, s: string): (r: string)
    requires WellFormed(t)
    ensures HasVerb(t) ==> |r| == |t| - 2 + |s|
    ensures !HasVerb(t) ==> |r| == |t| + |ExtraOpen| + |s| + |ExtraClose|
    ensures !HasVerb(t) ==>
      && r[..|t|] == t
      && r[|t|..|t| + |ExtraOpen|] == ExtraOpen
      && r[|r| - |ExtraClose|..] == ExtraClose
  {
    var i := FirstIndex(t, '%');
    if i < |t| then t[..i] + s + t[i + 2..]
    else t + ExtraOpen + s + ExtraClose
  }

  /** Recovers the argument from a formatted string, given the template. */
  function Unformat(t: string, r: string): string
    requires WellFormed(t)
    requires HasVerb(t) ==> |r| >= |t| - 2
    requires !HasVerb(t) ==> |r| >= |t| + |ExtraOpen| + |ExtraClose|
  {
    var i := FirstIndex(t, '%');
    if i < |t| then r[i..|r| - (|t| - i - 2)]
    else r[|t| + |ExtraOpen|..|r| - |ExtraClose|]
  }

  /** The argument can be read back from the formatted string: formatting
      with a fixed template is injective. */
  lemma UnformatSprintf(t: string, s: string)
    requires WellFormed(t)
    ensures Unformat(t, Sprintf(t, s)) == s
  {
    var r := Sprintf(t, s);
    var i := FirstIndex(t, '%');
    if i < |t| {
      assert r[i..|r| - (|t| - i - 2)] == s;
    } else {
      assert r[|t| + |ExtraOpen|..|r| - |ExtraClose|] == s;
    }
  }

  /** The text of the template around the verb is kept verbatim: what
      precedes `%s` comes first and what follows it comes last. */
  lemma SprintfKeepsTemplate(t: string, s: string)
    requires WellFormed(t)
    requires HasVerb(t)
    ensures var i := FirstIndex(t, '%');
      && Sprintf(t, s)[..i] == t[..i]
      && Sprintf(t, s)[i + |s|..] == t[i + 2..]
      && t[i..i + 2] == "%s"
  {
  }
}

=== FILE: levels.dfy ===
/** Severity levels and the process-wide level registry: the name map, the
    default template map and the default colour map, with the total lookups
    `Level.Name`, `Level.Formatter` and `Level.Color`. */
module Levels {
  import opened Options
  import Decimal
  import Fmt
  import Colors

  /** A colour function, applied to a rendered line. */
  type ColorFn = string -> string

  /** `defaultColor`: the identity. */
  const Identity: ColorFn := s => s

  /** The built-in severities; a level is any integer. */
  datatype Severity = Debug | Warn | Info | Error | Important {

    function Level(): int
    {
      match this
      case Debug => 10
      case Warn => 20
      case Info => 30
      case Error => 40
      case Important => 50
    }
  }

  /** The built-in severity at a level, if there is one. */
  function SeverityAt(l: int): (r: Option<Severity>)
    ensures r.Some? ==> r.value.Level() == l
    ensures r.None? ==> forall sev: Severity :: sev.Level() != l
  {
    if l == 10 then Some(Debug)
    else if l == 20 then Some(Warn)
    else if l == 30 then Some(Info)
    else if l == 40 then Some(Error)
    else if l == 50 then Some(Important)
    else None
  }

  /** Every severity is found again at its level. */
  lemma SeverityAtLevel(sev: Severity)
    ensures SeverityAt(sev.Level()) == Some(sev)
  {
  }

  /** The bold wrappers the default colour map refers to, supplied by the
      caller: their definitions are not part of this model. */
  datatype Palette = Palette(redBold: ColorFn, yellowBold: ColorFn, purpleBold: ColorFn)

  /** `LogNameMap`, `DefaultFormatterMap` and `DefaultColorMap`. */
  datatype Registry = Registry(
    names: map<int, string>,
    formatters: map<int, string>,
    colors: map<int, ColorFn>)

  /** The built-in template of a severity: its head, the one `%s` verb,
      its tail. */
  function DefaultTemplate(sev: Severity): string
  {
    DefaultHead(sev) + "%s" + DefaultTail(sev)
  }

  /** The registry as the package initialises it. */
  function DefaultRegistry(p: Palette): (r: Registry)
    ensures forall sev: Severity :: sev.Level() in r.names && sev.Level() in r.formatters && sev.Level() in r.colors
  {
    Registry(
      map[Debug.Level() := "debug", Info.Level() := "info", Error.Level() := "error",
          Warn.Level() := "warn", Important.Level() := "important"],
      map[Debug.Level() := DefaultTemplate(Debug), Warn.Level() := DefaultTemplate(Warn),
          Info.Level() := DefaultTemplate(Info), Error.Level() := DefaultTemplate(Error),
          Important.Level() := DefaultTemplate(Important)],
      map[Debug.Level() := (s => Colors.Paint(Colors.Yellow, s)), Error.Level() := p.redBold,
          Info.Level() := (s => Colors.Paint(Colors.Cyan, s)), Warn.Level() := p.yellowBold,
          Important.Level() := p.purpleBold])
  }

  /** `Level.Name`: the registered name, or the decimal form of the level. */
  function Name(reg: Registry, l: int): string
  {
    if l in reg.names then reg.names[l] else Decimal.Itoa(l)
  }

  /** The template `Level.Formatter` and `NewLevel` fall back to. */
  function FallbackTemplate(name: string): string
  {
    "[" + name + "] %s"
  }

  /** `Level.Formatter`: the default template, or `[<name>] %s`. */
  function Formatter(reg: Registry, l: int): string
  {
    if l in reg.formatters then reg.formatters[l] else FallbackTemplate(Name(reg, l))
  }

  /** `Level.Color`: the default colour function, or the identity. */
  function Color(reg: Registry, l: int): ColorFn
  {
    if l in reg.colors then reg.colors[l] else Identity
  }

  /** The severities are ordered by their levels, and distinct. */
  lemma SeverityOrder()
    ensures Debug.Level() < Warn.Level() < Info.Level() < Error.Level() < Important.Level()
    ensures forall a: Severity, b: Severity :: a.Level() == b.Level() ==> a == b
  {
  }

  /** A registered level resolves to its name; an unregistered one to a
      decimal string that reads back as the level, negative or not. */
  lemma NameResolves(reg: Registry, l: int)
    ensures l in reg.names ==> Name(reg, l) == reg.names[l]
    ensures l !in reg.names ==> Decimal.IsDecimal(Name(reg, l)) && Decimal.Atoi(Name(reg, l)) == l
    ensures l !in reg.names ==> (Name(reg, l)[0] == '-' <==> l < 0)
  {
    Decimal.ItoaRoundTrip(l);
  }

  /** Two unregistered levels never share a name. */
  lemma UnregisteredNamesDistinct(reg: Registry, l: int, m: int)
    requires l !in reg.names && m !in reg.names && l != m
    ensures Name(reg, l) != Name(reg, m)
  {
    Decimal.ItoaInjective(l, m);
  }

  /** The fallback template is well formed and renders the message after
      the bracketed level name. */
  lemma FallbackTemplateRenders(name: string, s: string)
    requires forall i :: 0 <= i < |name| ==> name[i] != '%'
    ensures Fmt.WellFormed(FallbackTemplate(name))
    ensures Fmt.Sprintf(FallbackTemplate(name), s) == "[" + name + "] " + s
  {
    var t := FallbackTemplate(name);
    assert forall i :: 0 <= i < |name| + 3 ==> t[i] != '%';
    assert t[|name| + 3] == '%' && t[|name| + 4] == 's';
    assert Fmt.FirstIndex(t, '%') == |name| + 3;
  }

  /** A level with a default template resolves to it; any other to
      `[<name>] %s`, which formats as `[<name>] <message>` when the name
      holds no `%`. */
  lemma FormatterResolves(reg: Registry, l: int, s: string)
    ensures l in reg.formatters ==> Formatter(reg, l) == reg.formatters[l]
    ensures l !in reg.formatters ==> Formatter(reg, l) == "[" + Name(reg, l) + "] %s"
    ensures l !in reg.formatters && (forall i :: 0 <= i < |Name(reg, l)| ==> Name(reg, l)[i] != '%') ==>
      && Fmt.WellFormed(Formatter(reg, l))
      && Fmt.Sprintf(Formatter(reg, l), s) == "[" + Name(reg, l) + "] " + s
  {
    if l !in reg.formatters && forall i :: 0 <= i < |Name(reg, l)| ==> Name(reg, l)[i] != '%' {
      FallbackTemplateRenders(Name(reg, l), s);
    }
  }

  /** A level without a default colour function is left uncoloured. */
  lemma ColorResolves(reg: Registry, l: int, s: string)
    ensures l !in reg.colors ==> Color(reg, l)(s) == s
    ensures l in reg.colors ==> Color(reg, l) == reg.colors[l]
  {
  }

  /** The text of a built-in template before its verb. */
  function DefaultHead(sev: Severity): string
  {
    match sev
    case Debug => "[debug] "
    case Warn => "[warn] "
    case Info => "[+] "
    case Error => "[-] "
    case Important => "[*] "
  }

  /** The text of a built-in template after its verb. */
  function DefaultTail(sev: Severity): string
  {
    if sev == Debug || sev == Warn then " " else " {{suffix}}"
  }

  /** Neither the head nor the tail of a built-in template holds a `%`. */
  lemma DefaultPartsVerbFree(sev: Severity)
    ensures '%' !in DefaultHead(sev) && '%' !in DefaultTail(sev)
  {
  }

  /** The built-in templates are well formed: the text before the verb
      and after it holds no `%`. */
  lemma DefaultTemplateWellFormed(sev: Severity)
    ensures Fmt.WellFormed(DefaultTemplate(sev))
  {
    DefaultPartsVerbFree(sev);
    Fmt.VerbTemplate(DefaultHead(sev), DefaultTail(sev));
  }

  /** The default registry holds each severity's built-in name and
      template. */
  lemma DefaultRegistryAt(p: Palette, sev: Severity)
    ensures sev.Level() in DefaultRegistry(p).formatters
    ensures DefaultRegistry(p).formatters[sev.Level()] == DefaultTemplate(sev)
    ensures sev.Level() in DefaultRegistry(p).names
  {
    match sev
    case Debug =>
    case Warn =>
    case Info =>
    case Error =>
    case Important =>
  }

  /** The three default maps register exactly the five built-in levels. */
  lemma DefaultRegistryKeys(p: Palette)
    ensures DefaultRegistry(p).names.Keys == {10, 20, 30, 40, 50}
    ensures DefaultRegistry(p).formatters.Keys == DefaultRegistry(p).names.Keys
    ensures DefaultRegistry(p).colors.Keys == DefaultRegistry(p).names.Keys
  {
  }

  /** Every template of the default registry is a built-in one. */
  lemma DefaultRegistryTemplates(p: Palette, l: int)
    requires l in DefaultRegistry(p).formatters
    ensures exists sev: Severity :: sev.Level() == l && DefaultRegistry(p).formatters[l] == DefaultTemplate(sev)
    ensures Fmt.WellFormed(DefaultRegistry(p).formatters[l])
  {
    var sev := SeverityAt(l).value;
    assert DefaultRegistry(p).formatters[l] == DefaultTemplate(sev);
    DefaultTemplateWellFormed(sev);
  }

  /** The default names: each severity is known by its lower-case name. */
  lemma DefaultNames(p: Palette)
    ensures Name(DefaultRegistry(p), Debug.Level()) == "debug"
    ensures Name(DefaultRegistry(p), Warn.Level()) == "warn"
    ensures Name(DefaultRegistry(p), Info.Level()) == "info"
    ensures Name(DefaultRegistry(p), Error.Level()) == "error"
    ensures Name(DefaultRegistry(p), Important.Level()) == "important"
  {
  }

  /** The default colours: Debug is underlined yellow and Info bold cyan. */
  lemma DefaultColors(p: Palette, s: string)
    ensures Color(DefaultRegistry(p), Debug.Level())(s) == Colors.Paint(Colors.Yellow, s)
    ensures Color(DefaultRegistry(p), Info.Level())(s) == Colors.Paint(Colors.Cyan, s)
    ensures Color(DefaultRegistry(p), Error.Level()) == p.redBold
    ensures Color(DefaultRegistry(p), Warn.Level()) == p.yellowBold
    ensures Color(DefaultRegistry(p), Important.Level()) == p.purpleBold
  {
  }
}

=== FILE: logger.dfy ===
/** The logger: its configuration record, runtime level registration
    (`NewLevel`), the raw console passthrough (`Console`) and the gated,
    templated, optionally coloured emission (`logInterface`) that every
    severity method goes through. */
module Logging {
  import opened Options
  import Fmt
  import Replace
  import Levels

  /** Where a logger's template or colour map lives: the process-wide
      default map itself (as `NewLogger` installs it, so writes through the
      logger are seen by every reader of the default), or a map of its own
      (as `SetFormatter` / `SetColorMap` install it). */
  datatype MapSource<V> = SharedDefault | Own(m: map<int, V>)

  /** The map a source designates, given the process-wide default. */
  function Effective<V>(shared: map<int, V>, src: MapSource<V>): map<int, V>
  {
    match src
    case SharedDefault => shared
    case Own(m) => m
  }

  /** The process-wide map after writing `v` at `l` through `src`. */
  function StoreShared<V>(shared: map<int, V>, src: MapSource<V>, l: int, v: V): map<int, V>
  {
    if src.SharedDefault? then shared[l := v] else shared
  }

  /** The source after writing `v` at `l` through it. */
  function StoreSource<V>(src: MapSource<V>, l: int, v: V): MapSource<V>
  {
    match src
    case SharedDefault => SharedDefault
    case Own(m) => Own(m[l := v])
  }

  /** Writing through a source updates exactly the map it designates, and
      touches the process-wide map only when the source aliases it. */
  lemma StoreUpdatesEffective<V>(shared: map<int, V>, src: MapSource<V>, l: int, v: V)
    ensures Effective(StoreShared(shared, src, l, v), StoreSource(src, l, v)) == Effective(shared, src)[l := v]
    ensures src.SharedDefault? <==> StoreSource(src, l, v).SharedDefault?
    ensures src.Own? ==> StoreShared(shared, src, l, v) == shared
  {
  }

  /** The logger's configuration. The console writer and the log file are
      the output sequences an emission returns; `fileAttached` says whether
      a log file was opened. */
  datatype Logger = Logger(
    quiet: bool,
    clean: bool,
    color: bool,
    threshold: int,
    formatter: MapSource<string>,
    colorMap: MapSource<Levels.ColorFn>,
    fileAttached: bool)

  /** The process-wide registry together with one logger. */
  datatype World = World(registry: Levels.Registry, logger: Logger)

  /** `NewLogger(level)`: quiet, clean and colour off, no file, and the
      default template and colour maps shared rather than copied. */
  function NewLogger(level: int): Logger
  {
    Logger(false, false, false, level, SharedDefault, SharedDefault, false)
  }

  /** The decoration the default `SuffixFunc` produces from the time. */
  function DefaultSuffix(time: string): string
  {
    ", " + time
  }

  /** The decoration the default `PrefixFunc` produces. */
  const DefaultPrefix: string := ""

  const SuffixToken: string := "{{suffix}}"
  const PrefixToken: string := "{{prefix}}"

  /** `log.Formatter` as the logger sees it. */
  function FormatterMap(w: World): map<int, string>
  {
    Effective(w.registry.formatters, w.logger.formatter)
  }

  /** `log.ColorMap` as the logger sees it. */
  function ColorMap(w: World): map<int, Levels.ColorFn>
  {
    Effective(w.registry.colors, w.logger.colorMap)
  }

  /** A fresh logger reads and writes the process-wide default maps. */
  lemma NewLoggerSharesDefaults(reg: Levels.Registry, level: int)
    ensures FormatterMap(World(reg, NewLogger(level))) == reg.formatters
    ensures ColorMap(World(reg, NewLogger(level))) == reg.colors
    ensures !NewLogger(level).quiet && !NewLogger(level).clean && !NewLogger(level).color
    ensures !NewLogger(level).fileAttached && NewLogger(level).threshold == level
  {
  }

  /** `SetFormatter(m)`: the logger reads and writes the map passed in from
      now on. `SharedDefault` is `DefaultFormatterMap` itself, which
      restores the sharing; `Own(m)` is any other map. */
  function SetFormatter(w: World, src: MapSource<string>): (w': World)
    ensures FormatterMap(w') == Effective(w.registry.formatters, src) && ColorMap(w') == ColorMap(w)
    ensures w'.registry == w.registry
    ensures w'.logger.(formatter := w.logger.formatter) == w.logger
  {
    w.(logger := w.logger.(formatter := src))
  }

  /** `SetColorMap(cm)`: the logger reads and writes the map passed in from
      now on; `SharedDefault` is `DefaultColorMap` itself. */
  function SetColorMap(w: World, src: MapSource<Levels.ColorFn>): (w': World)
    ensures ColorMap(w') == Effective(w.registry.colors, src) && FormatterMap(w') == FormatterMap(w)
    ensures w'.registry == w.registry
    ensures w'.logger.(colorMap := w.logger.colorMap) == w.logger
  {
    w.(logger := w.logger.(colorMap := src))
  }

  /** After `SetFormatter` with a map other than the default, registering a
      level no longer reaches the process-wide templates, and the logger
      sees the new template; after `SetFormatter(DefaultFormatterMap)` it
      reaches them again. */
  lemma SetFormatterDecouples(w: World, m: map<int, string>, l: int, name: string, o: LevelOptions)
    ensures var w' := NewLevel(SetFormatter(w, Own(m)), l, name, Some(o));
      && w'.registry.formatters == w.registry.formatters
      && FormatterMap(w') == m[l := o.formatter.GetOr(Levels.FallbackTemplate(name))]
    ensures var w' := NewLevel(SetFormatter(w, SharedDefault), l, name, Some(o));
      && w'.registry.formatters == w.registry.formatters[l := o.formatter.GetOr(Levels.FallbackTemplate(name))]
      && Levels.Formatter(w'.registry, l) == o.formatter.GetOr(Levels.FallbackTemplate(name))
  {
  }

  /** The options map of `NewLevel`: `None` stands for a nil map, and each
      field for the presence of the `"formatter"` or `"color"` key. */
  datatype LevelOptions = LevelOptions(formatter: Option<string>, color: Option<Levels.ColorFn>)

  /** `NewLevel(l, name, opt)`: always names the level; with options, sets
      its template (the given one or `[<name>] %s`) and, when a colour is
      given, its colour, writing through the logger's maps. */
  function NewLevel(w: World, l: int, name: string, opt: Option<LevelOptions>): (w': World)
    ensures w'.registry.names == w.registry.names[l := name]
    ensures opt.None? ==> FormatterMap(w') == FormatterMap(w) && ColorMap(w') == ColorMap(w)
    ensures opt.Some? ==>
      FormatterMap(w') == FormatterMap(w)[l := opt.value.formatter.GetOr(Levels.FallbackTemplate(name))]
    ensures opt.Some? && opt.value.color.Some? ==> ColorMap(w') == ColorMap(w)[l := opt.value.color.value]
    ensures opt.Some? && opt.value.color.None? ==> ColorMap(w') == ColorMap(w)
    ensures w'.logger.formatter.SharedDefault? <==> w.logger.formatter.SharedDefault?
    ensures w'.logger.colorMap.SharedDefault? <==> w.logger.colorMap.SharedDefault?
    ensures w.logger.formatter.Own? ==> w'.registry.formatters == w.registry.formatters
    ensures w.logger.colorMap.Own? ==> w'.registry.colors == w.registry.colors
    ensures w'.logger.(formatter := w.logger.formatter, colorMap := w.logger.colorMap) == w.logger
  {
    var reg := w.registry.(names := w.registry.names[l := name]);
    match opt
    case None => World(reg, w.logger)
    case Some(o) =>
      var f := o.formatter.GetOr(Levels.FallbackTemplate(name));
      StoreUpdatesEffective(reg.formatters, w.logger.formatter, l, f);
      var reg1 := reg.(formatters := StoreShared(reg.formatters, w.logger.formatter, l, f));
      var log1 := w.logger.(formatter := StoreSource(w.logger.formatter, l, f));
      match o.color
      case None => World(reg1, log1)
      case Some(c) =>
        StoreUpdatesEffective(reg1.colors, log1.colorMap, l, c);
        World(reg1.(colors := StoreShared(reg1.colors, log1.colorMap, l, c)),
              log1.(colorMap := StoreSource(log1.colorMap, l, c)))
  }

  /** The name of a level, once registered, is the registered one. */
  lemma NewLevelNames(w: World, l: int, name: string, opt: Option<LevelOptions>)
    ensures Levels.Name(NewLevel(w, l, name, opt).registry, l) == name
  {
  }

  /** Registering one level leaves every other level's name, template and
      colour, in the logger's maps and in the process-wide lookups, as it
      was. */
  lemma NewLevelFrame(w: World, l: int, name: string, opt: Option<LevelOptions>, k: int)
    requires k != l
    ensures var w' := NewLevel(w, l, name, opt);
      && Levels.Name(w'.registry, k) == Levels.Name(w.registry, k)
      && Levels.Formatter(w'.registry, k) == Levels.Formatter(w.registry, k)
      && Levels.Color(w'.registry, k) == Levels.Color(w.registry, k)
      && (k in FormatterMap(w') <==> k in FormatterMap(w))
      && (k in FormatterMap(w) ==> FormatterMap(w')[k] == FormatterMap(w)[k])
      && (k in ColorMap(w') <==> k in ColorMap(w))
      && (k in ColorMap(w) ==> ColorMap(w')[k] == ColorMap(w)[k])
  {
    var w' := NewLevel(w, l, name, opt);
    assert w'.registry.formatters == w.registry.formatters
      || w'.registry.formatters == w.registry.formatters[l := FormatterMap(w')[l]];
    assert w'.registry.colors == w.registry.colors
      || w'.registry.colors == w.registry.colors[l := ColorMap(w')[l]];
  }

  /** Because a fresh logger shares the default maps, a template or colour
      registered through it changes what `Level.Formatter` and `Level.Color`
      return; a logger with maps of its own leaves them alone. */
  lemma NewLevelThroughSharedMaps(w: World, l: int, name: string, o: LevelOptions)
    ensures var w' := NewLevel(w, l, name, Some(o));
      && (w.logger.formatter.SharedDefault? ==>
            Levels.Formatter(w'.registry, l) == o.formatter.GetOr(Levels.FallbackTemplate(name)))
      && (w.logger.formatter.Own? ==>
            Levels.Formatter(w'.registry, l) == Levels.Formatter(w.registry.(names := w.registry.names[l := name]), l))
      && (w.logger.colorMap.SharedDefault? && o.color.Some? ==>
            Levels.Color(w'.registry, l) == o.color.value)
      && (w.logger.colorMap.Own? ==> Levels.Color(w'.registry, l) == Levels.Color(w.registry, l))
  {
  }

  /** The console and file writes of one call. */
  datatype Writes = Writes(console: seq<string>, file: seq<string>)

  const NoWrites: Writes := Writes([], [])

  /** The gate of `logInterface`. */
  predicate Passes(log: Logger, level: int)
  {
    !log.quiet && level >= log.threshold
  }

  /** `log.Formatter[level]`: a missing key reads as Go's zero value, the
      empty template. */
  function TemplateAt(w: World, level: int): string
  {
    var m := FormatterMap(w);
    if level in m then m[level] else ""
  }

  /** The line of one emission: the message put into the template, every
      `{{suffix}}` and then every `{{prefix}}` replaced, and a newline. */
  function Render(template: string, s: string, suffix: string, prefix: string): (line: string)
    requires Fmt.WellFormed(template)
    ensures |line| > 0 && line[|line| - 1] == '\n'
  {
    var formatted := Fmt.Sprintf(template, s);
    var suffixed := Replace.ReplaceAll(formatted, SuffixToken, suffix);
    Replace.ReplaceAll(suffixed, PrefixToken, prefix) + "\n"
  }

  /** What an emission needs from the template it reads. */
  predicate CanRender(w: World, level: int)
  {
    Passes(w.logger, level) ==> Fmt.WellFormed(TemplateAt(w, level))
  }

  /** `logInterface(level, s)` with the given suffix and prefix decorations.
      `None` is the panic of calling the nil colour function of a level
      missing from the colour map while colour is on. */
  function LogInterface(w: World, level: int, s: string, suffix: string, prefix: string): (r: Option<Writes>)
    requires CanRender(w, level)
    ensures r.None? <==> Passes(w.logger, level) && w.logger.color && level !in ColorMap(w)
    ensures !Passes(w.logger, level) ==> r == Some(NoWrites)
    ensures r.Some? && Passes(w.logger, level) ==>
      var line := Render(TemplateAt(w, level), s, suffix, prefix);
      && r.value.file == (if w.logger.fileAttached then [line] else [])
      && r.value.console == [if w.logger.color then ColorMap(w)[level](line) else line]
  {
    if !Passes(w.logger, level) then Some(NoWrites)
    else
      var line := Render(TemplateAt(w, level), s, suffix, prefix);
      var file := if w.logger.fileAttached then [line] else [];
      if !w.logger.color then Some(Writes([line], file))
      else if level in ColorMap(w) then Some(Writes([ColorMap(w)[level](line)], file))
      else None
  }

  /** `Log`, `Debug`, `Warn`, `Info`, `Error` and `Important`. */
  function Emit(w: World, sev: Levels.Severity, s: string, suffix: string, prefix: string): Option<Writes>
    requires CanRender(w, sev.Level())
  {
    LogInterface(w, sev.Level(), s, suffix, prefix)
  }

  /** `Console(s)`: writes `s` unless the logger is clean. */
  function Console(log: Logger, s: string): (r: seq<string>)
    ensures |r| <= 1
    ensures forall i :: 0 <= i < |r| ==> r[i] == s
  {
    if !log.clean then [s] else []
  }

  /** An emission writes to the console exactly when it passes the gate,
      once, and to the file exactly when it also has a file. */
  lemma LogInterfaceGate(w: World, level: int, s: string, suffix: string, prefix: string)
    requires CanRender(w, level)
    requires LogInterface(w, level, s, suffix, prefix).Some?
    ensures var r := LogInterface(w, level, s, suffix, prefix).value;
      && (|r.console| > 0 <==> !w.logger.quiet && level >= w.logger.threshold)
      && |r.console| <= 1
      && (|r.file| > 0 <==> Passes(w.logger, level) && w.logger.fileAttached)
      && |r.file| <= 1
  {
  }

  /** The file receives the plain line whatever the colour flag, and with
      colour off the console receives the same line. */
  lemma FileGetsPlainLine(w: World, level: int, s: string, suffix: string, prefix: string)
    requires CanRender(w, level)
    requires Passes(w.logger, level) && w.logger.fileAttached
    requires level in ColorMap(w)
    ensures var plain := LogInterface(w.(logger := w.logger.(color := false)), level, s, suffix, prefix).value;
      var colored := LogInterface(w.(logger := w.logger.(color := true)), level, s, suffix, prefix).value;
      && plain.file == colored.file == plain.console
      && colored.console == [ColorMap(w)[level](plain.file[0])]
  {
  }

  /** The clean flag has no effect on an emission. */
  lemma CleanDoesNotGateEmission(w: World, level: int, s: string, suffix: string, prefix: string, c: bool)
    requires CanRender(w, level)
    ensures CanRender(w.(logger := w.logger.(clean := c)), level)
    ensures LogInterface(w.(logger := w.logger.(clean := c)), level, s, suffix, prefix)
         == LogInterface(w, level, s, suffix, prefix)
  {
  }

  /** The passthrough is gated by the clean flag alone: neither quiet nor
      the level threshold affects it. */
  lemma ConsoleGate(log: Logger, s: string, q: bool, t: int)
    ensures Console(log, s) == [s] <==> !log.clean
    ensures Console(log, s) == [] <==> log.clean
    ensures Console(log.(quiet := q, threshold := t), s) == Console(log, s)
  {
  }

  /** Without tokens left after formatting, the decorations do not matter
      and the line is the formatted message and a newline. */
  lemma RenderWithoutTokens(template: string, s: string, suffix: string, prefix: string)
    requires Fmt.WellFormed(template)
    requires !Replace.Contains(Fmt.Sprintf(template, s), SuffixToken)
    requires !Replace.Contains(Fmt.Sprintf(template, s), PrefixToken)
    ensures Render(template, s, suffix, prefix) == Fmt.Sprintf(template, s) + "\n"
  {
    Replace.ReplaceAllAbsent(Fmt.Sprintf(template, s), SuffixToken, suffix);
    Replace.ReplaceAllAbsent(Fmt.Sprintf(template, s), PrefixToken, prefix);
  }

  /** No match of a token can begin where the string has no `{`. */
  lemma NoTokenBefore(s: string, token: string, k: nat)
    requires |token| > 0 && token[0] == '{'
    requires k <= |s|
    requires forall i :: 0 <= i < k ==> s[i] != '{'
    ensures forall i :: 0 <= i < k ==> !Replace.OccursAt(s, token, i)
  {
    forall i | 0 <= i < k
      ensures !Replace.OccursAt(s, token, i)
    {
      assert i + |token| > |s| || s[i..i + |token|][0] != token[0];
    }
  }

  predicate BraceFree(s: string)
  {
    forall i :: 0 <= i < |s| ==> s[i] != '{'
  }

  /** The suffix pass over `text + {{suffix}}`, where `text` has no `{`,
      puts the suffix once at the end. */
  lemma SuffixPass(text: string, suffix: string)
    requires BraceFree(text)
    ensures Replace.ReplaceAll(text + SuffixToken, SuffixToken, suffix) == text + suffix
  {
    var formatted := text + SuffixToken;
    var k := |text|;
    NoTokenBefore(formatted, SuffixToken, k);
    Replace.ReplaceAllCopiesPrefix(formatted, k, SuffixToken, suffix);
    assert formatted[k..] == SuffixToken;
    Replace.ReplaceAllLeading(formatted[k..], SuffixToken, suffix);
    assert formatted[k..][|SuffixToken|..] == "";
  }

  /** The prefix pass over `text + suffix`, where `text` has no `{` and the
      suffix no prefix token, changes nothing. */
  lemma PrefixPass(text: string, suffix: string, prefix: string)
    requires BraceFree(text)
    requires !Replace.Contains(suffix, PrefixToken)
    ensures Replace.ReplaceAll(text + suffix, PrefixToken, prefix) == text + suffix
  {
    var suffixed := text + suffix;
    var k := |text|;
    NoTokenBefore(suffixed, PrefixToken, k);
    Replace.ReplaceAllCopiesPrefix(suffixed, k, PrefixToken, prefix);
    assert suffixed[k..] == suffix;
    Replace.ReplaceAllAbsent(suffix, PrefixToken, prefix);
  }

  /** The shape of the Info, Error and Important templates: text, the
      message, a space and the suffix. With no `{` in the text or the
      message, the suffix is placed once after them, and the prefix only
      replaces tokens the suffix itself contains. */
  lemma SuffixTemplateRenders(head: string, s: string, suffix: string, prefix: string)
    requires BraceFree(head) && BraceFree(s)
    requires forall i :: 0 <= i < |head| ==> head[i] != '%'
    requires !Replace.Contains(suffix, PrefixToken)
    ensures Fmt.WellFormed(head + "%s" + " {{suffix}}")
    ensures Render(head + "%s" + " {{suffix}}", s, suffix, prefix) == head + s + " " + suffix + "\n"
  {
    var t := head + "%s" + " {{suffix}}";
    Fmt.VerbTemplate(head, " {{suffix}}");
    var text := head + s + " ";
    assert BraceFree(text);
    assert Fmt.Sprintf(t, s) == text + SuffixToken;
    SuffixPass(text, suffix);
    PrefixPass(text, suffix, prefix);
  }

  /** Replacement runs after formatting, so a token inside the message is
      replaced too: the message `{{suffix}}` alone renders as the suffix. */
  lemma MessageTokenReplaced(suffix: string, prefix: string)
    requires !Replace.Contains(suffix, PrefixToken)
    ensures Fmt.WellFormed("%s")
    ensures Render("%s", SuffixToken, suffix, prefix) == suffix + "\n"
  {
    Fmt.VerbTemplate("", "");
    assert "" + "%s" + "" == "%s";
    assert Fmt.Sprintf("%s", SuffixToken) == "" + SuffixToken;
    SuffixPass("", suffix);
    PrefixPass("", suffix, prefix);
    assert "" + suffix == suffix;
  }

  /** A string without `{` contains no decoration token. */
  lemma BraceFreeHasNoToken(s: string, token: string)
    requires BraceFree(s)
    requires |token| > 0 && token[0] == '{'
    ensures !Replace.Contains(s, token)
  {
    NoTokenBefore(s, token, |s|);
  }

  /** One call of `logInterface`, with the decorations its suffix and
      prefix functions produced for it. */
  datatype Call = Call(level: int, message: string, suffix: string, prefix: string)

  /** A call that renders and does not panic. */
  predicate Safe(w: World, c: Call)
  {
    && CanRender(w, c.level)
    && (Passes(w.logger, c.level) && w.logger.color ==> c.level in ColorMap(w))
  }

  /** The plain line a call renders; empty for a template this model does
      not format. */
  function LineOf(w: World, c: Call): string
  {
    var t := TemplateAt(w, c.level);
    if Fmt.WellFormed(t) then Render(t, c.message, c.suffix, c.prefix) else ""
  }

  /** The plain lines of the calls that pass the gate, in call order. */
  function PlainLines(w: World, calls: seq<Call>): (lines: seq<string>)
    ensures |lines| <= |calls|
  {
    if |calls| == 0 then []
    else
      var c := calls[|calls| - 1];
      var front := PlainLines(w, calls[..|calls| - 1]);
      if Passes(w.logger, c.level) then front + [LineOf(w, c)]
      else front
  }

  /** The number of calls that pass the gate. */
  function PassCount(log: Logger, calls: seq<Call>): nat
  {
    if |calls| == 0 then 0
    else PassCount(log, calls[..|calls| - 1]) + (if Passes(log, calls[|calls| - 1].level) then 1 else 0)
  }

  /** What the first `k` calls leave in the outputs. */
  predicate Replayed(w: World, calls: seq<Call>, k: nat, out: Writes)
    requires k <= |calls|
  {
    var lines := PlainLines(w, calls[..k]);
    && out.file == (if w.logger.fileAttached then lines else [])
    && |out.console| == |lines|
    && (!w.logger.color ==> out.console == lines)
  }

  /** Appending what call `k` writes extends the outputs of the first `k`
      calls to those of the first `k + 1`. */
  lemma ReplayStep(w: World, calls: seq<Call>, k: nat, out: Writes, r: Option<Writes>)
    requires k < |calls| && Safe(w, calls[k]) && Replayed(w, calls, k, out)
    requires r == LogInterface(w, calls[k].level, calls[k].message, calls[k].suffix, calls[k].prefix)
    ensures r.Some? && Replayed(w, calls, k + 1, Writes(out.console + r.value.console, out.file + r.value.file))
  {
    assert calls[..k + 1][..k] == calls[..k];
  }

  /** The console and file contents after the calls, one after the other,
      starting from empty outputs. */
  method Replay(w: World, calls: seq<Call>) returns (out: Writes)
    requires forall i :: 0 <= i < |calls| ==> Safe(w, calls[i])
    ensures out.file == if w.logger.fileAttached then PlainLines(w, calls) else []
    ensures |out.console| == |PlainLines(w, calls)|
    ensures !w.logger.color ==> out.console == PlainLines(w, calls)
  {
    out := NoWrites;
    var k := 0;
    while k < |calls|
      invariant k <= |calls| && Replayed(w, calls, k, out)
    {
      var c := calls[k];
      var r := LogInterface(w, c.level, c.message, c.suffix, c.prefix);
      ReplayStep(w, calls, k, out, r);
      out := Writes(out.console + r.value.console, out.file + r.value.file);
      k := k + 1;
    }
    assert calls[..k] == calls;
  }

  /** Every call that passes the gate leaves exactly one line. */
  lemma {:induction false} PlainLinesCount(w: World, calls: seq<Call>)
    ensures |PlainLines(w, calls)| == PassCount(w.logger, calls)
  {
    if |calls| > 0 {
      PlainLinesCount(w, calls[..|calls| - 1]);
    }
  }

  /** When every call passes, each leaves its line. */
  lemma {:induction false} PlainLinesAllPass(w: World, calls: seq<Call>)
    requires forall i :: 0 <= i < |calls| ==> Passes(w.logger, calls[i].level)
    ensures |PlainLines(w, calls)| == |calls|
    ensures |calls| > 0 ==>
      PlainLines(w, calls) == PlainLines(w, calls[..|calls| - 1]) + [LineOf(w, calls[|calls| - 1])]
  {
    if |calls| > 0 {
      PlainLinesAllPass(w, calls[..|calls| - 1]);
    }
  }

  /** When every call passes, the `i`-th line is the `i`-th call rendered. */
  lemma {:induction false} PlainLineAt(w: World, calls: seq<Call>, i: nat)
    requires forall j :: 0 <= j < |calls| ==> Passes(w.logger, calls[j].level)
    requires i < |calls|
    ensures i < |PlainLines(w, calls)|
    ensures PlainLines(w, calls)[i] == LineOf(w, calls[i])
    decreases |calls|
  {
    var front := calls[..|calls| - 1];
    PlainLinesAllPass(w, calls);
    if i < |front| {
      PlainLineAt(w, front, i);
      assert front[i] == calls[i];
    }
  }

  /** After `n` emissions that all pass there are `n` lines, in call order,
      each the rendering of its call. */
  lemma PlainLinesInOrder(w: World, calls: seq<Call>)
    requires forall i :: 0 <= i < |calls| ==> Passes(w.logger, calls[i].level)
    ensures |PlainLines(w, calls)| == |calls|
    ensures forall i :: 0 <= i < |calls| ==> PlainLines(w, calls)[i] == LineOf(w, calls[i])
  {
    PlainLinesAllPass(w, calls);
    forall i | 0 <= i < |calls|
      ensures PlainLines(w, calls)[i] == LineOf(w, calls[i])
    {
      PlainLineAt(w, calls, i);
    }
  }
}

=== FILE: options.dfy ===
/** The optional value used throughout the model: a Go map lookup that may
    miss, an option that may be absent, or an emission that may panic. */
module Options {

  datatype Option<+T> = None | Some(value: T) {

    /** The carried value, or `default` when there is none. */
    function GetOr(default: T): T
    {
      match this
      case Some(v) => v
      case None => default
    }
  }
}

=== FILE: replace.dfy ===
/** Go's `strings.Replace(s, token, repl, -1)`: every non-overlapping
    occurrence of `token`, found left to right, is replaced by `repl`. The
    model follows the library's own loop (find the next occurrence, copy
    what precedes it, write `repl`, continue after the match) and is proved
    equal to a character-by-character scanning definition. */
module Replace {
  import opened Options

  /** `pat` occurs in `s` starting at index `i`. */
  predicate OccursAt(s: string, pat: string, i: int)
  {
    0 <= i && i + |pat| <= |s| && s[i..i + |pat|] == pat
  }

  predicate Contains(s: string, pat: string)
  {
    exists i :: 0 <= i <= |s| && OccursAt(s, pat, i)
  }

  /** An occurrence in a suffix of `s` is an occurrence in `s`, shifted. */
  lemma OccursAtShift(s: string, pat: string, k: nat, i: int)
    requires k <= |s|
    requires 0 <= i
    ensures OccursAt(s[k..], pat, i) <==> OccursAt(s, pat, i + k)
  {
    if i + |pat| <= |s| - k {
      assert s[k..][i..i + |pat|] == s[i + k..i + k + |pat|];
    }
  }

  /** `strings.Index`: the first position at which `pat` occurs, if any. */
  function Index(s: string, pat: string): (r: Option<nat>)
    ensures r.Some? ==> OccursAt(s, pat, r.value)
    ensures r.Some? ==> forall j :: 0 <= j < r.value ==> !OccursAt(s, pat, j)
    ensures r.None? <==> !Contains(s, pat)
    decreases |s|
  {
    if |s| < |pat| then None
    else if s[..|pat|] == pat then Some(0)
    else
      assert !OccursAt(s, pat, 0);
      assert forall j :: 1 <= j ==> (OccursAt(s, pat, j) <==> OccursAt(s[1..], pat, j - 1)) by {
        forall j | 1 <= j
          ensures OccursAt(s, pat, j) <==> OccursAt(s[1..], pat, j - 1)
        {
          OccursAtShift(s, pat, 1, j - 1);
        }
      }
      match Index(s[1..], pat)
      case None => None
      case Some(k) => Some(k + 1)
  }

  /** `strings.Replace(s, token, repl, -1)` for a non-empty `token`. */
  function ReplaceAll(s: string, token: string, repl: string): string
    requires |token| > 0
    decreases |s|
  {
    match Index(s, token)
    case None => s
    case Some(j) => s[..j] + repl + ReplaceAll(s[j + |token|..], token, repl)
  }

  /** Reference definition: scan one character at a time, replacing a match
      that starts at the current position and skipping past it. */
  function ScanReplace(s: string, token: string, repl: string): string
    requires |token| > 0
    decreases |s|
  {
    if |s| < |token| then s
    else if s[..|token|] == token then repl + ScanReplace(s[|token|..], token, repl)
    else [s[0]] + ScanReplace(s[1..], token, repl)
  }

  /** The scan copies a leading stretch in which no match begins. */
  lemma {:induction false} ScanReplaceCopiesPrefix(s: string, k: nat, token: string, repl: string)
    requires |token| > 0
    requires k <= |s|
    requires forall i :: 0 <= i < k ==> !OccursAt(s, token, i)
    ensures ScanReplace(s, token, repl) == s[..k] + ScanReplace(s[k..], token, repl)
    decreases k
  {
    if k > 0 {
      forall i | 0 <= i < k - 1
        ensures !OccursAt(s[1..], token, i)
      {
        OccursAtShift(s, token, 1, i);
      }
      ScanReplaceCopiesPrefix(s[1..], k - 1, token, repl);
      assert s[1..][k - 1..] == s[k..];
      assert !OccursAt(s, token, 0);
      if |s| < |token| {
        assert ScanReplace(s[k..], token, repl) == s[k..];
        assert s == s[..k] + s[k..];
      } else {
        assert s[..|token|] != token;
        assert s[..k] == [s[0]] + s[1..][..k - 1];
      }
    }
  }

  /** The library's search-based loop and the scanning definition agree on
      every input. */
  lemma {:induction false} ReplaceAllIsScan(s: string, token: string, repl: string)
    requires |token| > 0
    ensures ReplaceAll(s, token, repl) == ScanReplace(s, token, repl)
    decreases |s|
  {
    match Index(s, token)
    case None =>
      ScanReplaceAbsent(s, token, repl);
    case Some(j) =>
      var rest := s[j + |token|..];
      ScanReplaceAtFirstMatch(s, j, token, repl);
      ReplaceAllIsScan(rest, token, repl);
  }

  /** The scan, at the first match, copies what precedes it and writes the
      replacement. */
  lemma ScanReplaceAtFirstMatch(s: string, j: nat, token: string, repl: string)
    requires |token| > 0
    requires OccursAt(s, token, j)
    requires forall i :: 0 <= i < j ==> !OccursAt(s, token, i)
    ensures ScanReplace(s, token, repl) == s[..j] + repl + ScanReplace(s[j + |token|..], token, repl)
  {
    ScanReplaceCopiesPrefix(s, j, token, repl);
    ScanReplaceLeading(s[j..], token, repl);
    assert s[j..][|token|..] == s[j + |token|..];
  }

  /** At a match the scan writes the replacement and skips the match. */
  lemma ScanReplaceLeading(s: string, token: string, repl: string)
    requires |token| > 0
    requires OccursAt(s, token, 0)
    ensures ScanReplace(s, token, repl) == repl + ScanReplace(s[|token|..], token, repl)
  {
  }

  /** Without any match the scan leaves the string unchanged. */
  lemma {:induction false} ScanReplaceAbsent(s: string, token: string, repl: string)
    requires |token| > 0
    requires !Contains(s, token)
    ensures ScanReplace(s, token, repl) == s
    decreases |s|
  {
    if |s| >= |token| {
      assert !OccursAt(s, token, 0);
      forall j | 0 <= j
        ensures !OccursAt(s[1..], token, j)
      {
        OccursAtShift(s, token, 1, j);
      }
      ScanReplaceAbsent(s[1..], token, repl);
      assert s == [s[0]] + s[1..];
    }
  }

  /** A string without `token` is returned as is, whatever `repl` is. */
  lemma ReplaceAllAbsent(s: string, token: string, repl: string)
    requires |token| > 0
    requires !Contains(s, token)
    ensures ReplaceAll(s, token, repl) == s
  {
  }

  /** Replacing a token by itself is the identity. */
  lemma {:induction false} ReplaceAllSelf(s: string, token: string)
    requires |token| > 0
    ensures ReplaceAll(s, token, token) == s
    decreases |s|
  {
    match Index(s, token)
    case None =>
    case Some(j) =>
      ReplaceAllSelf(s[j + |token|..], token);
      assert s == s[..j] + token + s[j + |token|..];
  }

  /** A string that starts with `token` has it replaced, and the rest is
      processed on its own. */
  lemma ReplaceAllLeading(s: string, token: string, repl: string)
    requires |token| > 0
    requires OccursAt(s, token, 0)
    ensures ReplaceAll(s, token, repl) == repl + ReplaceAll(s[|token|..], token, repl)
  {
  }

  /** A leading stretch in which no match begins is copied unchanged. */
  lemma ReplaceAllCopiesPrefix(s: string, k: nat, token: string, repl: string)
    requires |token| > 0
    requires k <= |s|
    requires forall i :: 0 <= i < k ==> !OccursAt(s, token, i)
    ensures ReplaceAll(s, token, repl) == s[..k] + ReplaceAll(s[k..], token, repl)
  {
    ReplaceAllIsScan(s, token, repl);
    ReplaceAllIsScan(s[k..], token, repl);
    ScanReplaceCopiesPrefix(s, k, token, repl);
  }
}

=== FILE: scenarios.dfy ===
/** Whole-pipeline consequences for the package's default logger, `Log`,
    and for levels registered at run time. */
module Scenarios {
  import opened Options
  import Fmt
  import Replace
  import Levels
  import opened Logging

  /** `var Log = NewLogger(Warn)` over the package's initial registry. */
  function DefaultWorld(p: Levels.Palette): World
  {
    World(Levels.DefaultRegistry(p), NewLogger(Levels.Severity.Warn.Level()))
  }

  /** Every built-in severity can be rendered by the default logger. */
  lemma DefaultWorldRenders(p: Levels.Palette, sev: Levels.Severity)
    ensures TemplateAt(DefaultWorld(p), sev.Level()) == Levels.DefaultTemplate(sev)
    ensures CanRender(DefaultWorld(p), sev.Level())
  {
    Levels.DefaultRegistryAt(p, sev);
    Levels.DefaultTemplateWellFormed(sev);
  }

  /** With the default threshold Warn, Debug is suppressed and the other
      four severities each write one console line and, with no file, no
      file line. */
  lemma DefaultThreshold(p: Levels.Palette, sev: Levels.Severity, s: string, suffix: string, prefix: string)
    ensures CanRender(DefaultWorld(p), sev.Level())
    ensures sev == Levels.Severity.Debug ==> Emit(DefaultWorld(p), sev, s, suffix, prefix) == Some(NoWrites)
    ensures sev != Levels.Severity.Debug ==>
      && Emit(DefaultWorld(p), sev, s, suffix, prefix).Some?
      && |Emit(DefaultWorld(p), sev, s, suffix, prefix).value.console| == 1
      && Emit(DefaultWorld(p), sev, s, suffix, prefix).value.file == []
  {
    DefaultWorldRenders(p, sev);
  }

  /** The default logger passes every severity but Debug, has colour off
      and no file. */
  lemma DefaultWorldConfig(p: Levels.Palette)
    ensures var log := DefaultWorld(p).logger;
      && !log.color && !log.fileAttached && !log.quiet
      && log.threshold == Levels.Severity.Warn.Level()
  {
  }

  /** A plain, file-less logger whose template at `level` has the shape of
      the Info, Error and Important templates prints the message, a space
      and the suffix. */
  lemma SuffixLevelLine(w: World, level: int, head: string, s: string, suffix: string, prefix: string)
    requires BraceFree(head) && BraceFree(s)
    requires forall i :: 0 <= i < |head| ==> head[i] != '%'
    requires !Replace.Contains(suffix, PrefixToken)
    requires TemplateAt(w, level) == head + "%s" + " {{suffix}}"
    requires Passes(w.logger, level) && !w.logger.color && !w.logger.fileAttached
    ensures CanRender(w, level)
    ensures LogInterface(w, level, s, suffix, prefix) == Some(Writes([head + s + " " + suffix + "\n"], []))
  {
    SuffixTemplateRenders(head, s, suffix, prefix);
  }

  /** `Info(s)` on the default logger prints `[+] <s> <suffix>` and a
      newline, for a message without `{` and a suffix without the prefix
      token; for example `Info("x")` prints `"[+] x " + suffix + "\n"`. */
  lemma InfoLine(p: Levels.Palette, s: string, suffix: string, prefix: string)
    requires BraceFree(s)
    requires !Replace.Contains(suffix, PrefixToken)
    ensures CanRender(DefaultWorld(p), Levels.Severity.Info.Level())
    ensures Emit(DefaultWorld(p), Levels.Severity.Info, s, suffix, prefix) == Some(Writes(["[+] " + s + " " + suffix + "\n"], []))
  {
    var w := DefaultWorld(p);
    Levels.DefaultRegistryAt(p, Levels.Severity.Info);
    DefaultWorldConfig(p);
    assert Levels.DefaultTemplate(Levels.Severity.Info) == "[+] " + "%s" + " {{suffix}}";
    SuffixLevelLine(w, 30, "[+] ", s, suffix, prefix);
  }

  /** The default suffix of a time without `{` holds no prefix token. */
  lemma DefaultSuffixClean(time: string)
    requires BraceFree(time)
    ensures !Replace.Contains(DefaultSuffix(time), PrefixToken)
  {
    assert BraceFree(DefaultSuffix(time));
    BraceFreeHasNoToken(DefaultSuffix(time), PrefixToken);
  }

  /** With the default decorations, `Info(s)` on the default logger prints
      `[+] <s> , <time>` and a newline, for a message and a time without
      `{`. */
  lemma InfoLineDefaultDecorations(p: Levels.Palette, s: string, time: string)
    requires BraceFree(s) && BraceFree(time)
    ensures CanRender(DefaultWorld(p), Levels.Severity.Info.Level())
    ensures Emit(DefaultWorld(p), Levels.Severity.Info, s, DefaultSuffix(time), DefaultPrefix)
         == Some(Writes(["[+] " + s + " , " + time + "\n"], []))
  {
    var suffix := DefaultSuffix(time);
    DefaultSuffixClean(time);
    InfoLine(p, s, suffix, DefaultPrefix);
    InfoJoin(s, time);
  }

  /** The space after the message and the default suffix's comma join up. */
  lemma InfoJoin(s: string, time: string)
    ensures "[+] " + s + " " + DefaultSuffix(time) + "\n" == "[+] " + s + " , " + time + "\n"
  {
    assert " " + ", " == " , ";
    assert "[+] " + s + " " + (", " + time) == "[+] " + s + (" " + ", ") + time;
  }

  /** A plain, file-less logger whose template at `level` has no token
      prints the message between the text around the verb. */
  lemma TokenFreeLevelLine(w: World, level: int, head: string, tail: string, s: string, suffix: string, prefix: string)
    requires BraceFree(head) && BraceFree(tail) && BraceFree(s)
    requires forall i :: 0 <= i < |head| ==> head[i] != '%'
    requires forall i :: 0 <= i < |tail| ==> tail[i] != '%'
    requires TemplateAt(w, level) == head + "%s" + tail
    requires Passes(w.logger, level) && !w.logger.color && !w.logger.fileAttached
    ensures CanRender(w, level)
    ensures LogInterface(w, level, s, suffix, prefix) == Some(Writes([head + s + tail + "\n"], []))
  {
    var t := head + "%s" + tail;
    Fmt.VerbTemplate(head, tail);
    var formatted := Fmt.Sprintf(t, s);
    assert formatted == head + s + tail;
    assert BraceFree(formatted);
    BraceFreeHasNoToken(formatted, SuffixToken);
    BraceFreeHasNoToken(formatted, PrefixToken);
    RenderWithoutTokens(t, s, suffix, prefix);
  }

  /** `Warn(s)` on the default logger prints `[warn] <s> ` (with the space
      the template ends in) and a newline, whatever the decorations, for a
      message without `{`. */
  lemma WarnLine(p: Levels.Palette, s: string, suffix: string, prefix: string)
    requires BraceFree(s)
    ensures CanRender(DefaultWorld(p), Levels.Severity.Warn.Level())
    ensures Emit(DefaultWorld(p), Levels.Severity.Warn, s, suffix, prefix) == Some(Writes(["[warn] " + s + " " + "\n"], []))
  {
    var w := DefaultWorld(p);
    Levels.DefaultRegistryAt(p, Levels.Severity.Warn);
    DefaultWorldConfig(p);
    assert Levels.DefaultTemplate(Levels.Severity.Warn) == "[warn] " + "%s" + " ";
    TokenFreeLevelLine(w, 20, "[warn] ", " ", s, suffix, prefix);
  }

  /** A level registered with a template of its own renders through it: on
      any plain, file-less logger that passes level 100, after
      `NewLevel(100, "alert", {"formatter": "[ALERT] %s {{suffix}}"})`,
      `Log(100, s)` prints `[ALERT] <s> <suffix>` and a newline. */
  lemma CustomTemplateLine(w: World, s: string, suffix: string, prefix: string)
    requires Passes(w.logger, 100) && !w.logger.color && !w.logger.fileAttached
    requires BraceFree(s)
    requires !Replace.Contains(suffix, PrefixToken)
    ensures var w' := NewLevel(w, 100, "alert", Some(LevelOptions(Some("[ALERT] %s {{suffix}}"), None)));
      && CanRender(w', 100)
      && LogInterface(w', 100, s, suffix, prefix) == Some(Writes(["[ALERT] " + s + " " + suffix + "\n"], []))
  {
    var w' := NewLevel(w, 100, "alert", Some(LevelOptions(Some("[ALERT] %s {{suffix}}"), None)));
    assert TemplateAt(w', 100) == "[ALERT] " + "%s" + " {{suffix}}";
    SuffixLevelLine(w', 100, "[ALERT] ", s, suffix, prefix);
  }

  /** A level registered with an empty options map gets the template
      `[<name>] %s`: the message follows the bracketed name, with no space
      or suffix after it. */
  lemma NewLevelWithOptionsLine(w: World, l: int, name: string, s: string, suffix: string, prefix: string)
    requires Passes(w.logger, l) && !w.logger.color
    requires BraceFree(name) && BraceFree(s)
    requires forall i :: 0 <= i < |name| ==> name[i] != '%'
    ensures var w' := NewLevel(w, l, name, Some(LevelOptions(None, None)));
      && CanRender(w', l)
      && LogInterface(w', l, s, suffix, prefix).Some?
      && LogInterface(w', l, s, suffix, prefix).value.console == ["[" + name + "] " + s + "\n"]
  {
    var w' := NewLevel(w, l, name, Some(LevelOptions(None, None)));
    var t := Levels.FallbackTemplate(name);
    assert TemplateAt(w', l) == t;
    Levels.FallbackTemplateRenders(name, s);
    var formatted := "[" + name + "] " + s;
    assert BraceFree(formatted);
    BraceFreeHasNoToken(formatted, SuffixToken);
    BraceFreeHasNoToken(formatted, PrefixToken);
    RenderWithoutTokens(t, s, suffix, prefix);
  }

  /** A level registered without options has a name but no template in the
      logger's map. `Level.Formatter` then falls back to `[<name>] %s`, but
      the emission reads the map directly, finds the empty template, and Go
      reports the message as an extra argument. */
  lemma NewLevelWithoutOptionsLine(w: World, l: int, name: string, s: string, suffix: string, prefix: string)
    requires l !in FormatterMap(w) && l !in w.registry.formatters
    requires Passes(w.logger, l) && !w.logger.color
    requires BraceFree(s)
    ensures var w' := NewLevel(w, l, name, None);
      && CanRender(w', l)
      && Levels.Formatter(w'.registry, l) == "[" + name + "] %s"
      && LogInterface(w', l, s, suffix, prefix).Some?
      && LogInterface(w', l, s, suffix, prefix).value.console == ["%!(EXTRA string=" + s + ")\n"]
  {
    var w' := NewLevel(w, l, name, None);
    assert TemplateAt(w', l) == "";
    assert Fmt.FirstIndex("", '%') == 0;
    var formatted := Fmt.Sprintf("", s);
    assert formatted == "%!(EXTRA string=" + s + ")";
    assert BraceFree(formatted);
    BraceFreeHasNoToken(formatted, SuffixToken);
    BraceFreeHasNoToken(formatted, PrefixToken);
    RenderWithoutTokens("", s, suffix, prefix);
    assert Render("", s, suffix, prefix) == "%!(EXTRA string=" + s + ")\n";
    assert LogInterface(w', l, s, suffix, prefix).value.console == [Render("", s, suffix, prefix)];
  }
}
